=== FILE: README.md ===
# Time widgets: a Dafny model

A model of the logic behind a suite of React time widgets: a countdown timer,
a sand-clock countdown, a stopwatch with laps, a digital clock with a
12/24-hour switch, an analog clock and an hourglass picture. Each component's
`useState` fields become one immutable record, and each event handler becomes
a pure transition function on that record. The periodic interval a component
registers becomes a `Tick` that is enabled only under the effect's guard. A
toast or completion chime becomes a `Notice` returned with the new state.
Percentages and angles are exact `real`s. All other arithmetic is on natural
numbers with `/` and `%`.

Modules, one per source file, plus three shared ones:

- `Digits`: decimal numerals, the result of `String(n)` and `padStart(2, "0")`. `Value` reads a numeral back.
- `Inputs`: what a numeric input stores. The outcome of `parseInt` is an `Option<int>`, which is then clamped.
- `TimeFields`: splits whole seconds into hours, minutes and seconds. The countdown timer and the stopwatch use it; the sand-clock does its own minutes/seconds split.
- `Countdown` (`Timer.tsx`), `SandTimer` (`AnimatedSandTimer.tsx`), `Stopwatch` (`Stopwatch.tsx`).
- `ClockDisplay` (`ClockDisplay.tsx`), `AnalogClock` (`AnalogClock.tsx`), `SandClock` (`SandClock.tsx`).

The countdown, sand-clock and stopwatch modules each have an `Action` type
and an `Apply` function for one action; their tick action is called
`Interval`. `Final` gives the state after a sequence of actions. A tick action that
arrives while the guard is false changes nothing, because no interval is
registered at that point. `Apply` also accepts the edit and ±1 actions in
every state, including states where the component does not render those
controls (Timer.tsx:88, AnimatedSandTimer.tsx:211). This over-approximates
what a user can do, so the trace lemmas still hold for every real session.
The trace lemmas (`AtMostOneCompletion`,
`ProgressStaysInRange`, `LapsStayOrdered`, `RunsToCompletion`, `CountsDown`,
`PauseResume`) are stated over these sequences. The digital clock has a state
record too, but only two transitions, `ToggleFormat` and `Refresh`, related by
lemmas rather than traces.

Behaviours of the code that a reader might not expect, modelled as written:

- Laps are appended at the end of the list, so the oldest lap comes first.
- The countdowns count whole seconds and go down by 1 per tick, not by 1000 ms.
- The analog hands have no sub-second terms.
- The sand-clock reset keeps the configured minutes and seconds. The countdown timer's reset zeroes them.

## Model

| member | source | states |
|---|---|---|
| Digits.ToDecimal | src/components/Stopwatch.tsx:33-36 | `String(n)`: a digits-only numeral with no leading zero that reads back as `n`. It has one character iff `n < 10` and two iff `10 <= n < 100` |
| Digits.Pad2 | src/components/Stopwatch.tsx:33-36 | `padStart(2, "0")` on `String(n)`: reads back as `n`. It is exactly two characters below 100, and longer (the plain numeral) from 100 on |
| Inputs.Clamp | src/components/Timer.tsx:100 | `Math.max(lo, Math.min(hi, x))` lies in [lo, hi]. It is `x` inside the range and the nearer bound outside it |
| Inputs.FieldValue | src/components/Timer.tsx:100 | `parseInt(text) \|\| 0`, then clamped: unparseable text gives 0, and a number is moved to the nearest end of [0, max] |
| TimeFields.Split | src/components/Timer.tsx:40-43 | `h*3600 + m*60 + s` equals the input, with `m` and `s` in [0, 59] |
| TimeFields.SplitJoin | src/components/Timer.tsx:40-43 | the split is unique: fields with minutes and seconds below 60 are recovered from the count they stand for |
| TimeFields.FormatTime | src/components/Timer.tsx:40-50 | the three padded strings read back, field by field, as `Split` of the input: shown minutes and seconds are below 60 and the whole reads back as the input count. Minutes and seconds always have two characters, and hours have two iff the count is below 100 hours. From 100 hours on, the hours are exactly the plain numeral `String(hours)`, with no leading zero |
| Countdown.SetHours | src/components/Timer.tsx:100 | the hours edit changes only `hours`, which ends up in [0, 23], 0 for unparseable input, and otherwise the input clamped |
| Countdown.SetMinutes | src/components/Timer.tsx:113 | the minutes edit changes only `minutes`, clamped into [0, 59] the same way |
| Countdown.SetSeconds | src/components/Timer.tsx:126 | the seconds edit changes only `seconds`, clamped into [0, 59] the same way |
| Countdown.ConfiguredBound | src/components/Timer.tsx:54 | a clamped configuration totals at most 86399 seconds |
| Countdown.Start | src/components/Timer.tsx:52-65 | while editing, a zero total is refused with the error toast and no state change. A positive total loads `totalSeconds`, leaves editing and runs. Outside editing, only `isRunning` flips. Valid states stay valid, and the loaded count formats to fewer than 24 hours |
| Countdown.Tick | src/components/Timer.tsx:17-29 | enabled only while running with time left. It lowers `totalSeconds` by one and touches nothing else but `isRunning`. It completes (toast) iff the count was 1, and that is exactly when the guard turns false and exactly when `isRunning` becomes false |
| Countdown.Reset | src/components/Timer.tsx:67-74 | from any state: all fields and the count are zero, the timer is stopped and back in editing |
| Countdown.DisplayTime | src/components/Timer.tsx:76-78 | the display reads back, field by field, as the split of the configured total while editing and of `totalSeconds` otherwise, so shown minutes and seconds are below 60. In reachable states every field has two characters |
| Countdown.AtMostOneCompletion | src/components/Timer.tsx:17-65 | in any sequence of actions without a Reset, the completion toast is shown at most once, and never once the count is spent outside editing |
| Countdown.RunsToCompletion | src/components/Timer.tsx:17-29 | a running count of `n` seconds, given `n` or more ticks, shows exactly one toast and ends at 0 and stopped, whatever stray ticks follow. With `CountsDown`, which rules out an early toast, it completes on exactly the `n`-th tick |
| Countdown.CountsDown | src/components/Timer.tsx:17-29 | fewer than `n` ticks of a running count of `n` seconds lower it by one each, change nothing else and show no toast |
| Countdown.StrayTicks | src/components/Timer.tsx:16-37 | with the count at zero the guard is false, so a delivery finds no interval registered (Timer.tsx:17, 31-37) and is ignored: no change, no toast |
| SandTimer.Progress | src/components/AnimatedSandTimer.tsx:20 | 0 with nothing loaded. Whenever `timeLeft <= totalTime` it lies in [0, 100]. With a total loaded, it is 100 iff no time is left and 0 iff none has elapsed |
| SandTimer.ProgressMonotone | src/components/AnimatedSandTimer.tsx:20 | with the same total, less time left means strictly more progress |
| SandTimer.Start | src/components/AnimatedSandTimer.tsx:81-92 | with nothing left, a zero configuration is refused with no change. A positive one loads `totalTime = timeLeft = minutes*60 + seconds` and runs. With time left, the timer only resumes, keeping both counts. Validity is kept |
| SandTimer.Pause | src/components/AnimatedSandTimer.tsx:94-96 | stops the timer and changes nothing else, progress included |
| SandTimer.Reset | src/components/AnimatedSandTimer.tsx:98-101 | stops the timer and sets `timeLeft = totalTime = 0`, so progress is 0. The configured minutes and seconds are kept |
| SandTimer.Tick | src/components/AnimatedSandTimer.tsx:33-45 | lowers `timeLeft` by one, touching only `isRunning` besides. It completes (chime, toast) iff one second was left, which is exactly when `isRunning` becomes false. In valid states it strictly increases progress, which reaches 100 exactly on the completing tick |
| SandTimer.Nudge | src/components/AnimatedSandTimer.tsx:110 | a ±1 step kept in [0, 59]: up by one below 59, down by one above 0, and held at the ends |
| SandTimer.AdjustTime | src/components/AnimatedSandTimer.tsx:106-114 | does nothing while running. Otherwise it nudges only the chosen field |
| SandTimer.SetMinutes | src/components/AnimatedSandTimer.tsx:227 | the minutes input changes only `minutes`, clamped into [0, 59], with unparseable input giving 0 |
| SandTimer.SetSeconds | src/components/AnimatedSandTimer.tsx:257 | the seconds input changes only `seconds`, clamped into [0, 59], with unparseable input giving 0 |
| SandTimer.SandLevels | src/components/AnimatedSandTimer.tsx:152-154 | while time is left, top + bottom = 100 and bottom is the progress. Otherwise top = 100 and bottom = 0. In valid states both lie in [0, 100] |
| SandTimer.FormatTime | src/components/AnimatedSandTimer.tsx:116-120 | for every input, the part before the colon reads as `t / 60` and the two digits after it as `t % 60`, which is below 60, so together they read back as `t`. The result is five characters "MM:SS" iff below 100 minutes. From 100 minutes on, the minutes are exactly the plain numeral `String(t / 60)`. For any clamped configuration the minutes are at most 59 |
| SandTimer.ProgressStaysInRange | src/components/AnimatedSandTimer.tsx:20-114 | from any valid state, after any sequence of actions, the state is still valid and progress lies in [0, 100] |
| SandTimer.RunsToCompletion | src/components/AnimatedSandTimer.tsx:33-45 | a running timer with `n` seconds left, given `n` or more ticks, chimes exactly once and ends stopped at 100%, staying there through stray ticks. With `CountsDown`, which rules out an early chime, it completes on exactly the `n`-th tick |
| SandTimer.CountsDown | src/components/AnimatedSandTimer.tsx:33-45 | fewer than `n` ticks of a running timer with `n` seconds left lower `timeLeft` by one each, change nothing else, chime nothing and leave progress below 100% |
| SandTimer.StrayTicks | src/components/AnimatedSandTimer.tsx:33-56 | with no time left the guard is false, so a delivery finds no interval registered (AnimatedSandTimer.tsx:34, 46-49) and is ignored: no change, no chime |
| Stopwatch.Tick | src/components/Stopwatch.tsx:11-15 | enabled only while running. Adds exactly 10 ms and leaves the laps alone |
| Stopwatch.StartPause | src/components/Stopwatch.tsx:40-42 | flips `isRunning` only. Time and laps are unchanged |
| Stopwatch.Lap | src/components/Stopwatch.tsx:50-54 | a no-op when stopped. When running it appends the current time after the earlier laps, which are untouched, so the length grows by one |
| Stopwatch.Reset | src/components/Stopwatch.tsx:44-48 | from any state: stopped, time 0, no laps |
| Stopwatch.Split | src/components/Stopwatch.tsx:25-30 | minutes and seconds are in [0, 59] and hundredths in [0, 99]. The reconstruction is at most `ms` and less than `ms + 10`, and equals `ms` iff `ms` is a multiple of 10 |
| Stopwatch.FormatTime | src/components/Stopwatch.tsx:25-38 | each padded string reads back as its field. Minutes, seconds and hundredths have two characters, and hours have two iff below 100 hours. From 100 hours on, the hours are exactly the plain numeral `String(hours)`, with no leading zero, as a long-running stopwatch shows them |
| Stopwatch.LapsStayOrdered | src/components/Stopwatch.tsx:11-54 | after any sequence of actions from a valid state: the time is a multiple of 10, the laps are non-decreasing, and every lap is a multiple of 10 no later than the current time |
| Stopwatch.TicksAccumulate | src/components/Stopwatch.tsx:11-15 | `n` ticks while running add exactly `10 * n` and change nothing else |
| Stopwatch.PauseResume | src/components/Stopwatch.tsx:11-42 | ticking, pausing, stray deliveries, resuming and ticking again add exactly 10 per tick delivered while running |
| Stopwatch.IgnoredWhileStopped | src/components/Stopwatch.tsx:12-18 | deliveries while stopped change nothing |
| ClockDisplay.HourAndPeriod | src/components/ClockDisplay.tsx:21-26 | 24-hour mode passes the hour through with an empty period. 12-hour mode gives an hour in [1, 12] and "PM" iff the hour is 12 or later ("AM" iff before). `(h12 % 12) + (PM ? 12 : 0)` recovers the 24-hour hour |
| ClockDisplay.FormatTime | src/components/ClockDisplay.tsx:17-34 | the hour string reads back as the mode's hour and the minutes and seconds as the sample's. For a real sample all three are two characters |
| ClockDisplay.ModesAgree | src/components/ClockDisplay.tsx:19-20 | minutes and seconds are the same strings in both modes |
| ClockDisplay.ToggleFormat | src/components/ClockDisplay.tsx:87 | the mode flips and the shown time is kept |
| ClockDisplay.ToggleTwice | src/components/ClockDisplay.tsx:87 | toggling twice restores the original state |
| ClockDisplay.Refresh | src/components/ClockDisplay.tsx:9-12 | the interval's `setTime(new Date())`: the new sample is shown and the mode is kept. Its partners are `RefreshToggleCommute` and `RefreshKeepsLatest` |
| ClockDisplay.RefreshToggleCommute | src/components/ClockDisplay.tsx:9-12 | the 1-second refresh and the mode switch touch different fields, so applying them in either order gives the same state |
| ClockDisplay.RefreshKeepsLatest | src/components/ClockDisplay.tsx:9-12 | only the latest sample is shown: a refresh followed by another is the same as the second one alone |
| AnalogClock.DialHour | src/components/AnalogClock.tsx:15 | the dial hour is below 12 and equals the hour in the morning |
| AnalogClock.HourDegrees | src/components/AnalogClock.tsx:19 | at least the dial hour's 30° marker, and at most 359.5 for a real minute |
| AnalogClock.MinuteDegrees | src/components/AnalogClock.tsx:20 | a whole multiple of 6, one sixth of it is the minute, in [0, 354] for a real minute |
| AnalogClock.SecondDegrees | src/components/AnalogClock.tsx:21 | a whole multiple of 6, one sixth of it is the second, in [0, 354] for a real second |
| AnalogClock.HalfDayPeriod | src/components/AnalogClock.tsx:15-19 | hours `h` and `h + 12` give the same hour angle |
| AnalogClock.HourHandFollowsMinuteHand | src/components/AnalogClock.tsx:19-20 | the hour hand's offset past its marker is the minute angle divided by 12 |
| AnalogClock.OnTheHour | src/components/AnalogClock.tsx:19 | at minute 0 the hour hand sits exactly on a 30° marker |
| SandClock.Render | src/components/SandClock.tsx:20-190 | levels sum to 100 with the bottom equal to the progress. The top rect's lower edge is at 130 and the bottom's at 270. For progress in [0, 100] both heights lie in [0, 100]. Particles show iff 0 < progress < 100, and a bulb's texture iff its level is positive. The label is the floor of progress |
| SandClock.SandFlowsDown | src/components/SandClock.tsx:20-134 | more progress means less sand on top and more below: the top surface moves down and the bottom surface rises (its `y` decreases) |

## Left out

- React's effect lifecycle, `setInterval` and `clearInterval`. Each interval is modelled as a `Tick` enabled under the effect's guard. Nested state updates count as one step.
- Timing accuracy. Real elapsed time and interval jitter are not modelled. A tick counts as exactly its nominal period.
- Toasts, the Web Audio completion chime and its oscillator settings. They are represented only as the `Notice` a transition returns.
- Reading the wall clock (`new Date()`, `getHours` and the others) and the `Intl` date line. The sample is an input to `ClockDisplay.Refresh` and `ClockDisplay.FormatTime`.
- `parseInt` itself. Its outcome is an `Option<int>` parameter.
- The sand-clock's theme switcher and colours, the 600 ms flip animation and the random background particles. None of them affects the countdown.
- The sand-clock's rounded "% Complete" label (`Math.round`, AnimatedSandTimer.tsx:404). Only the exact progress it rounds is modelled.
- The sand-clock's pixel heights, `(level / 100) * 100` (AnimatedSandTimer.tsx:348, 373). They equal the levels modelled by `SandTimer.SandLevels`.
- All JSX and SVG markup, the analog clock's hour-marker trigonometry and the hourglass's random texture positions.
- `CircularProgress.tsx` (float geometry with π), `ThemeToggle.tsx` (local storage and DOM classes) and the tab page `Index.tsx`. They are not part of this model.
- IEEE floating point. Progress and angles are exact reals, so rounding in the browser's arithmetic is not modelled.

=== FILE: analog_clock.dfy ===
/** The analog clock (`AnalogClock.tsx`): hand rotations in degrees, clockwise
    from twelve o'clock, computed from the hour, minute and second of the
    current time. The hands jump once a second: there are no sub-second
    terms, and the minute hand does not move with the seconds. */
module AnalogClock {

  /** `hours = getHours() % 12`. */
  function DialHour(hour24: nat): (h: nat)
    ensures h < 12
    ensures hour24 < 12 ==> h == hour24
  {
    hour24 % 12
  }

  /** `hourDegrees = hours * 30 + minutes * 0.5`. For a real time of day the
      hour hand stays within [0, 359.5]. */
  function HourDegrees(hour24: nat, minute: nat): (d: real)
    ensures 0.0 <= d
    ensures minute < 60 ==> d <= 359.5
    ensures (DialHour(hour24) * 30) as real <= d
  {
    (DialHour(hour24) * 30) as real + (minute as real) * 0.5
  }

  /** Whether a real is a whole multiple of 6. */
  predicate WholeSixths(d: real) {
    d == d.Floor as real && d.Floor % 6 == 0
  }

  /** `minuteDegrees = minutes * 6`: a whole multiple of 6 within [0, 354]. */
  function MinuteDegrees(minute: nat): (d: real)
    ensures WholeSixths(d) && 0.0 <= d
    ensures minute < 60 ==> d <= 354.0
    ensures d / 6.0 == minute as real
  {
    (minute * 6) as real
  }

  /** `secondDegrees = seconds * 6`: a whole multiple of 6 within [0, 354]. */
  function SecondDegrees(second: nat): (d: real)
    ensures WholeSixths(d) && 0.0 <= d
    ensures second < 60 ==> d <= 354.0
    ensures d / 6.0 == second as real
  {
    (second * 6) as real
  }

  /** The hour hand points the same way twelve hours apart. */
  lemma HalfDayPeriod(hour24: nat, minute: nat)
    ensures HourDegrees(hour24 + 12, minute) == HourDegrees(hour24, minute)
  {
    assert DialHour(hour24 + 12) == DialHour(hour24);
  }

  /** Within its hour, the hour hand has turned a twelfth of the minute hand's angle. */
  lemma HourHandFollowsMinuteHand(hour24: nat, minute: nat)
    ensures HourDegrees(hour24, minute) - (DialHour(hour24) * 30) as real == MinuteDegrees(minute) / 12.0
  {
  }

  /** On the hour, the hour hand sits exactly on its hour marker. */
  lemma OnTheHour(hour24: nat)
    ensures HourDegrees(hour24, 0) == (DialHour(hour24) * 30) as real
    ensures HourDegrees(hour24, 0).Floor % 30 == 0
  {
  }
}

=== FILE: clock_display.dfy ===
/** The digital clock (`ClockDisplay.tsx`): the current time shown as padded
    hours, minutes and seconds, in 12-hour form with an AM/PM period or in
    24-hour form, switched by a button. Reading the wall clock is replaced by
    a sample passed in. */
module ClockDisplay {
  import Digits

  /** What `getHours`, `getMinutes` and `getSeconds` of a `Date` return. */
  datatype WallClock = WallClock(hour24: nat, minute: nat, second: nat)

  /** The ranges a `Date`'s getters keep to. */
  predicate ValidSample(t: WallClock) {
    t.hour24 < 24 && t.minute < 60 && t.second < 60
  }

  datatype ClockState = ClockState(now: WallClock, is24Hour: bool)

  /** The hour shown and the period label. */
  datatype HourLabel = HourLabel(hour: nat, period: string)

  /** The hour part of `formatTime`: unchanged with no period in 24-hour mode;
      otherwise `hours % 12 || 12` with "PM" from noon on and "AM" before. */
  function HourAndPeriod(hour24: nat, is24Hour: bool): (h: HourLabel)
    ensures is24Hour ==> h == HourLabel(hour24, "")
    ensures !is24Hour ==> 1 <= h.hour <= 12
    ensures !is24Hour ==> (h.period == "PM" <==> hour24 >= 12)
    ensures !is24Hour ==> (h.period == "AM" <==> hour24 < 12)
    ensures !is24Hour && hour24 < 24 ==>
      h.hour % 12 + (if h.period == "PM" then 12 else 0) == hour24
  {
    if is24Hour then HourLabel(hour24, "")
    else
      var period := if hour24 >= 12 then "PM" else "AM";
      var h := hour24 % 12;
      HourLabel(if h == 0 then 12 else h, period)
  }

  /** The four strings `formatTime` returns. */
  datatype Face = Face(hours: string, minutes: string, seconds: string, period: string)

  /** `formatTime`: the hour label and the minutes and seconds, each padded to
      two digits. For a real sample every field is two characters and reads
      back as the number it came from. */
  function FormatTime(t: WallClock, is24Hour: bool): (f: Face)
    ensures Digits.AllDigits(f.hours) && Digits.AllDigits(f.minutes) && Digits.AllDigits(f.seconds)
    ensures Digits.Value(f.hours) == HourAndPeriod(t.hour24, is24Hour).hour
    ensures f.period == HourAndPeriod(t.hour24, is24Hour).period
    ensures Digits.Value(f.minutes) == t.minute && Digits.Value(f.seconds) == t.second
    ensures ValidSample(t) ==> |f.hours| == 2 && |f.minutes| == 2 && |f.seconds| == 2
  {
    var h := HourAndPeriod(t.hour24, is24Hour);
    Face(Digits.Pad2(h.hour), Digits.Pad2(t.minute), Digits.Pad2(t.second), h.period)
  }

  /** Minutes and seconds do not depend on the mode. */
  lemma ModesAgree(t: WallClock)
    ensures FormatTime(t, true).minutes == FormatTime(t, false).minutes
    ensures FormatTime(t, true).seconds == FormatTime(t, false).seconds
  {
  }

  /** The mode button's `onClick`: the 24-hour flag flips, the time stays. */
  function ToggleFormat(c: ClockState): (r: ClockState)
    ensures r.is24Hour != c.is24Hour
    ensures r.now == c.now
  {
    c.(is24Hour := !c.is24Hour)
  }

  /** Pressing the mode button twice gives back the original display. */
  lemma ToggleTwice(c: ClockState)
    ensures ToggleFormat(ToggleFormat(c)) == c
  {
  }

  /** The 1-second interval: the displayed sample is replaced by a new one. */
  function Refresh(c: ClockState, sample: WallClock): (r: ClockState)
    ensures r.now == sample && r.is24Hour == c.is24Hour
  {
    c.(now := sample)
  }

  /** The mode button and the interval touch different fields: a switch and a
      refresh give the same state in either order. */
  lemma RefreshToggleCommute(c: ClockState, sample: WallClock)
    ensures ToggleFormat(Refresh(c, sample)) == Refresh(ToggleFormat(c), sample)
  {
  }

  /** Only the latest sample is shown: an earlier refresh leaves no trace. */
  lemma RefreshKeepsLatest(c: ClockState, earlier: WallClock, later: WallClock)
    ensures Refresh(Refresh(c, earlier), later) == Refresh(c, later)
  {
  }
}

=== FILE: countdown.dfy ===
/** The countdown timer (`Timer.tsx`): hours, minutes and seconds are edited,
    Start turns them into a count of seconds that a once-a-second tick counts
    down to zero, and Reset returns to editing with everything zeroed.

    The component's `useState` fields form one immutable record and every
    handler is a pure transition. The interval the effect registers while
    `isRunning && totalSeconds > 0` becomes `Tick`, enabled only under that
    guard. The toasts become a `Notice` returned with the new state. */
module Countdown {
  import opened Inputs
  import TimeFields

  const MaxHours: nat := 23
  const MaxMinutes: nat := 59
  const MaxSeconds: nat := 59

  /** The longest configurable countdown, 23:59:59. */
  const LongestRun: nat := MaxHours * 3600 + MaxMinutes * 60 + MaxSeconds

  datatype TimerState = TimerState(
    hours: nat,
    minutes: nat,
    seconds: nat,
    totalSeconds: nat,
    isRunning: bool,
    isEditing: bool)

  /** The toasts: `Complete` is "Timer Complete!", `InvalidTime` is "Please set a valid time". */
  datatype Notice = Quiet | Complete | InvalidTime

  /** A transition's new state together with the toast it shows, if any. */
  datatype Step = Step(state: TimerState, notice: Notice)

  /** The state the component mounts with. */
  const Initial := TimerState(0, 0, 0, 0, false, true)

  /** The duration the three edit fields describe, in seconds. */
  function Configured(s: TimerState): nat {
    TimeFields.Join(TimeFields.Fields(s.hours, s.minutes, s.seconds))
  }

  /** The states the component can reach: fields within their inputs' ranges,
      and no countdown in progress while editing. */
  ghost predicate Valid(s: TimerState) {
    && s.hours <= MaxHours && s.minutes <= MaxMinutes && s.seconds <= MaxSeconds
    && s.totalSeconds <= LongestRun
    && (s.isEditing ==> s.totalSeconds == 0 && !s.isRunning)
  }

  lemma InitialValid()
    ensures Valid(Initial)
  {
  }

  /** The hours input's `onChange`: only `hours` changes, clamped into [0, 23]. */
  function SetHours(s: TimerState, parsed: Option<int>): (r: TimerState)
    ensures r == s.(hours := r.hours)
    ensures StoredAs(parsed, MaxHours, r.hours)
    ensures Valid(s) ==> Valid(r)
  {
    s.(hours := FieldValue(parsed, MaxHours))
  }

  /** The minutes input's `onChange`: only `minutes` changes, clamped into [0, 59]. */
  function SetMinutes(s: TimerState, parsed: Option<int>): (r: TimerState)
    ensures r == s.(minutes := r.minutes)
    ensures StoredAs(parsed, MaxMinutes, r.minutes)
    ensures Valid(s) ==> Valid(r)
  {
    s.(minutes := FieldValue(parsed, MaxMinutes))
  }

  /** The seconds input's `onChange`: only `seconds` changes, clamped into [0, 59]. */
  function SetSeconds(s: TimerState, parsed: Option<int>): (r: TimerState)
    ensures r == s.(seconds := r.seconds)
    ensures StoredAs(parsed, MaxSeconds, r.seconds)
    ensures Valid(s) ==> Valid(r)
  {
    s.(seconds := FieldValue(parsed, MaxSeconds))
  }

  /** A clamped configuration never exceeds 23:59:59. */
  lemma ConfiguredBound(s: TimerState)
    requires s.hours <= MaxHours && s.minutes <= MaxMinutes && s.seconds <= MaxSeconds
    ensures Configured(s) <= LongestRun
  {
  }

  /** `handleStart`. While editing, a zero configuration is refused with a
      toast and nothing changes; otherwise the countdown is loaded and runs.
      Outside editing, Start is the pause/resume toggle. */
  function Start(s: TimerState): (r: Step)
    ensures s.isEditing && Configured(s) == 0 ==> r == Step(s, InvalidTime)
    ensures s.isEditing && Configured(s) > 0 ==>
      && r.notice == Quiet
      && r.state == s.(totalSeconds := Configured(s), isEditing := false, isRunning := true)
    ensures !s.isEditing ==> r == Step(s.(isRunning := !s.isRunning), Quiet)
    ensures Valid(s) ==> Valid(r.state)
    ensures Valid(s) ==> TimeFields.Split(r.state.totalSeconds).hours < 24
  {
    if s.isEditing then
      var total := s.hours * 3600 + s.minutes * 60 + s.seconds;
      if total > 0 then
        var r := Step(s.(totalSeconds := total, isEditing := false, isRunning := true), Quiet);
        assert Valid(s) ==> total <= LongestRun by {
          if Valid(s) { ConfiguredBound(s); }
        }
        r
      else
        Step(s, InvalidTime)
    else
      Step(s.(isRunning := !s.isRunning), Quiet)
  }

  /** The guard of the interval effect: ticks are delivered only while this holds. */
  predicate TickEnabled(s: TimerState) {
    s.isRunning && s.totalSeconds > 0
  }

  /** One delivery of the 1-second interval: the `setTotalSeconds` updater with
      the `setIsRunning(false)` and the toast it nests, taken as one step. */
  function Tick(s: TimerState): (r: Step)
    requires TickEnabled(s)
    ensures r.state.totalSeconds == s.totalSeconds - 1
    ensures r.state == s.(totalSeconds := r.state.totalSeconds, isRunning := r.state.isRunning)
    ensures r.notice != InvalidTime
    ensures r.notice == Complete <==> s.totalSeconds == 1
    ensures r.notice == Complete <==> !TickEnabled(r.state)
    ensures r.notice == Complete <==> !r.state.isRunning
    ensures Valid(s) ==> Valid(r.state)
  {
    if s.totalSeconds <= 1 then
      Step(s.(isRunning := false, totalSeconds := 0), Complete)
    else
      Step(s.(totalSeconds := s.totalSeconds - 1), Quiet)
  }

  /** `handleReset`: from any state, everything zeroed and back to editing. */
  function Reset(s: TimerState): (r: TimerState)
    ensures r.hours == 0 && r.minutes == 0 && r.seconds == 0 && r.totalSeconds == 0
    ensures !r.isRunning && r.isEditing
    ensures Valid(r)
  {
    TimerState(0, 0, 0, 0, false, true)
  }

  /** `displayTime`: the configuration while editing, the countdown otherwise.
      Shown minutes and seconds are always below 60. */
  function DisplayTime(s: TimerState): (d: TimeFields.Display)
    ensures TimeFields.Numeric(d)
    ensures TimeFields.Normal(TimeFields.Decode(d))
    ensures s.isEditing ==> TimeFields.Decode(d) == TimeFields.Split(Configured(s))
    ensures s.isEditing ==> TimeFields.Reading(d) == Configured(s)
    ensures !s.isEditing ==> TimeFields.Decode(d) == TimeFields.Split(s.totalSeconds)
    ensures !s.isEditing ==> TimeFields.Reading(d) == s.totalSeconds
    ensures Valid(s) ==> |d.hours| == 2 && |d.minutes| == 2 && |d.seconds| == 2
  {
    if s.isEditing then
      TimeFields.FormatTime(s.hours * 3600 + s.minutes * 60 + s.seconds)
    else
      TimeFields.FormatTime(s.totalSeconds)
  }

  /** What the user can do to the component, plus the interval's delivery. */
  datatype Action =
    | EditHours(hours: Option<int>)
    | EditMinutes(minutes: Option<int>)
    | EditSeconds(seconds: Option<int>)
    | PressStart
    | PressReset
    | Interval

  /** One action. A `Interval` while the guard is false finds no interval
      registered, so nothing happens. */
  function Apply(s: TimerState, a: Action): (r: Step)
    ensures Valid(s) ==> Valid(r.state)
    ensures Valid(s) && r.notice == Complete ==> a == Interval && r.state.totalSeconds == 0 && !r.state.isEditing
    ensures a != PressReset && r.notice != Complete ==>
      (s.isEditing || s.totalSeconds > 0 ==> r.state.isEditing || r.state.totalSeconds > 0)
    ensures a != PressReset && !s.isEditing && s.totalSeconds == 0 ==> r.notice != Complete
    ensures a != PressReset ==> (r.state.isEditing ==> s.isEditing)
  {
    match a
    case EditHours(v) => Step(SetHours(s, v), Quiet)
    case EditMinutes(v) => Step(SetMinutes(s, v), Quiet)
    case EditSeconds(v) => Step(SetSeconds(s, v), Quiet)
    case PressStart => Start(s)
    case PressReset => Step(Reset(s), Quiet)
    case Interval => if TickEnabled(s) then Tick(s) else Step(s, Quiet)
  }

  /** The state after a sequence of actions. */
  function Final(s: TimerState, acts: seq<Action>): TimerState
    decreases |acts|
  {
    if |acts| == 0 then s else Final(Apply(s, acts[0]).state, acts[1..])
  }

  /** How many "Timer Complete!" toasts a sequence of actions shows. */
  function Completions(s: TimerState, acts: seq<Action>): nat
    decreases |acts|
  {
    if |acts| == 0 then 0
    else
      var st := Apply(s, acts[0]);
      (if st.notice == Complete then 1 else 0) + Completions(st.state, acts[1..])
  }

  /** Without a Reset, a countdown completes at most once: after the tick that
      reaches zero, the guard blocks every further tick, and only a Reset
      followed by a new Start loads a fresh countdown. */
  lemma {:induction false} AtMostOneCompletion(s: TimerState, acts: seq<Action>)
    requires Valid(s)
    requires forall i :: 0 <= i < |acts| ==> acts[i] != PressReset
    ensures Completions(s, acts) <= (if s.isEditing || s.totalSeconds > 0 then 1 else 0)
    decreases |acts|
  {
    if |acts| > 0 {
      var st := Apply(s, acts[0]);
      assert forall i :: 0 <= i < |acts[1..]| ==> acts[1..][i] != PressReset by {
        forall i | 0 <= i < |acts[1..]| ensures acts[1..][i] != PressReset {
          assert acts[1..][i] == acts[i + 1];
        }
      }
      AtMostOneCompletion(st.state, acts[1..]);
    }
  }

  /** `n` deliveries of the interval. */
  function Ticks(n: nat): (acts: seq<Action>)
    ensures |acts| == n
    ensures forall i :: 0 <= i < n ==> acts[i] == Interval
  {
    seq(n, _ => Interval)
  }

  /** A running countdown of `n` seconds completes after exactly `n` ticks,
      shows its toast once, and stays at zero through any stray ticks after. */
  lemma {:induction false} RunsToCompletion(s: TimerState, extra: nat)
    requires Valid(s) && s.isRunning && s.totalSeconds > 0
    ensures Completions(s, Ticks(s.totalSeconds + extra)) == 1
    ensures Final(s, Ticks(s.totalSeconds + extra)).totalSeconds == 0
    ensures !Final(s, Ticks(s.totalSeconds + extra)).isRunning
    decreases s.totalSeconds
  {
    var acts := Ticks(s.totalSeconds + extra);
    var st := Tick(s);
    assert Apply(s, acts[0]) == st;
    assert acts[1..] == Ticks(st.state.totalSeconds + extra);
    if s.totalSeconds == 1 {
      StrayTicks(st.state, extra);
    } else {
      RunsToCompletion(st.state, extra);
    }
  }

  /** Ticks delivered after completion change nothing and show nothing. */
  lemma {:induction false} StrayTicks(s: TimerState, n: nat)
    requires s.totalSeconds == 0
    ensures Completions(s, Ticks(n)) == 0
    ensures Final(s, Ticks(n)) == s
    decreases n
  {
    if n > 0 {
      assert Apply(s, Ticks(n)[0]) == Step(s, Quiet);
      assert Ticks(n)[1..] == Ticks(n - 1);
      StrayTicks(s, n - 1);
    }
  }

  /** No completion comes early: fewer than `n` ticks of a running countdown
      of `n` seconds only lower the count, one second each, and show no toast. */
  lemma {:induction false} CountsDown(s: TimerState, k: nat)
    requires Valid(s) && s.isRunning && k < s.totalSeconds
    ensures Final(s, Ticks(k)) == s.(totalSeconds := s.totalSeconds - k)
    ensures Completions(s, Ticks(k)) == 0
    decreases k
  {
    if k > 0 {
      var st := Tick(s);
      assert Apply(s, Ticks(k)[0]) == st;
      assert Ticks(k)[1..] == Ticks(k - 1);
      CountsDown(st.state, k - 1);
    }
  }
}

=== FILE: digits.dfy ===
/** Decimal numerals as the widgets render them: JavaScript's `String(n)` for a
    whole number, and `String(n).padStart(2, "0")` for a display field. Every
    numeral comes with its reading `Value`, so that a rendered field can be read
    back and compared with the number it was made from. */
module Digits {

  predicate IsDigit(c: char) {
    '0' <= c <= '9'
  }

  predicate AllDigits(s: string) {
    forall i :: 0 <= i < |s| ==> IsDigit(s[i])
  }

  /** The character of one decimal digit. */
  function DigitChar(d: nat): (c: char)
    requires d < 10
    ensures IsDigit(c)
    ensures c as int - '0' as int == d
  {
    ('0' as int + d) as char
  }

  /** Reads a string of decimal digits as a number (most significant digit first). */
  function Value(s: string): nat
    requires AllDigits(s)
  {
    if |s| == 0 then 0
    else 10 * Value(s[..|s| - 1]) + (s[|s| - 1] as int - '0' as int)
  }

  /** `String(n)` for a non-negative whole number: the shortest numeral, with no
      sign and no leading zero. */
  function ToDecimal(n: nat): (s: string)
    ensures |s| >= 1 && AllDigits(s)
    ensures Value(s) == n
    ensures s[0] == '0' ==> n == 0
    ensures |s| == 1 <==> n < 10
    ensures |s| == 2 <==> 10 <= n < 100
    decreases n
  {
    if n < 10 then [DigitChar(n)]
    else
      var s := ToDecimal(n / 10) + [DigitChar(n % 10)];
      assert s[..|s| - 1] == ToDecimal(n / 10);
      s
  }

  /** A leading '0' does not change what a numeral reads as. */
  lemma {:induction false} LeadingZero(s: string)
    requires AllDigits(s)
    ensures AllDigits("0" + s)
    ensures Value("0" + s) == Value(s)
    decreases |s|
  {
    var t := "0" + s;
    if |s| > 0 {
      assert t[..|t| - 1] == "0" + s[..|s| - 1];
      assert t[|t| - 1] == s[|s| - 1];
      LeadingZero(s[..|s| - 1]);
    } else {
      assert t[..|t| - 1] == "";
    }
  }

  /** `String(n).padStart(2, "0")`: a one-digit number gets a leading zero; a
      numeral of two or more digits is left as it is. */
  function Pad2(n: nat): (s: string)
    ensures AllDigits(s) && Value(s) == n
    ensures n < 100 ==> |s| == 2
    ensures n >= 100 ==> |s| >= 3 && s == ToDecimal(n)
  {
    var d := ToDecimal(n);
    if |d| >= 2 then d
    else
      LeadingZero(d);
      "0" + d
  }
}

=== FILE: inputs.dfy ===
/** What a numeric `<Input>` handler stores: `parseInt(text) || 0`, clamped
    with `Math.max(0, Math.min(max, ...))`. `parseInt` itself is not modelled;
    its outcome is an `Option<int>`, `None` standing for `NaN`. */
module Inputs {

  datatype Option<+T> = None | Some(value: T)

  function Max(a: int, b: int): int {
    if a >= b then a else b
  }

  function Min(a: int, b: int): int {
    if a <= b then a else b
  }

  /** `Math.max(lo, Math.min(hi, x))`. */
  function Clamp(x: int, lo: int, hi: int): (r: int)
    requires lo <= hi
    ensures lo <= r <= hi
    ensures lo <= x <= hi ==> r == x
    ensures x < lo ==> r == lo
    ensures x > hi ==> r == hi
  {
    Max(lo, Min(hi, x))
  }

  /** How a stored field relates to the parsed text: nothing parsed reads as 0,
      and a parsed number is moved to the nearest end of [0, max]. */
  ghost predicate StoredAs(parsed: Option<int>, max: nat, r: int) {
    match parsed
    case None => r == 0
    case Some(v) =>
      && (v < 0 ==> r == 0)
      && (0 <= v <= max ==> r == v)
      && (v > max ==> r == max)
  }

  /** The value an edit handler stores for a field whose range is [0, max]. */
  function FieldValue(parsed: Option<int>, max: nat): (r: nat)
    ensures r <= max
    ensures StoredAs(parsed, max, r)
  {
    // `parseInt(text) || 0`: NaN is falsy and becomes 0
    var n := match parsed case None => 0 case Some(v) => v;
    Clamp(n, 0, max)
  }
}

=== FILE: sand_clock.dfy ===
/** The hourglass picture (`SandClock.tsx`): from a progress percentage, the
    sand level of each bulb, the rectangles that draw the sand in the SVG's
    200 by 300 view box, which decorations show, and the percent label. */
module SandClock {

  /** The bottom edge of the top bulb's sand and of the bottom bulb's sand. */
  const TopBase: real := 130.0
  const BottomBase: real := 270.0

  /** A sand rectangle's vertical placement; `x` and `width` are fixed at 50 and 100. */
  datatype Rect = Rect(y: real, height: real)

  /** Everything the component derives from `progress`. */
  datatype Hourglass = Hourglass(
    topLevel: real,
    bottomLevel: real,
    topSand: Rect,
    bottomSand: Rect,
    fallingParticles: bool,
    topTexture: bool,
    bottomTexture: bool,
    percentLabel: int)

  /** Whether a progress value is a percentage. */
  predicate InRange(progress: real) {
    0.0 <= progress <= 100.0
  }

  /** The component's derivation: `topSandLevel = 100 - progress`,
      `bottomSandLevel = progress`, the top rect at `30 + (100 - top)` with
      height `top`, the bottom rect at `270 - bottom` with height `bottom`,
      particles while `0 < progress < 100`, a bulb's texture while its level is
      positive, and the label `Math.floor(progress)`. */
  function Render(progress: real): (g: Hourglass)
    ensures g.topLevel + g.bottomLevel == 100.0
    ensures g.bottomLevel == progress
    ensures g.topSand.y + g.topSand.height == TopBase
    ensures g.bottomSand.y + g.bottomSand.height == BottomBase
    ensures g.topSand.height == g.topLevel && g.bottomSand.height == g.bottomLevel
    ensures InRange(progress) ==>
      && 0.0 <= g.topSand.height <= 100.0 && 0.0 <= g.bottomSand.height <= 100.0
      && 30.0 <= g.topSand.y && g.bottomSand.y <= BottomBase
    ensures g.fallingParticles <==> 0.0 < progress < 100.0
    ensures g.topTexture <==> progress < 100.0
    ensures g.bottomTexture <==> progress > 0.0
    ensures g.percentLabel as real <= progress < g.percentLabel as real + 1.0
    ensures InRange(progress) ==> 0 <= g.percentLabel <= 100
  {
    var top := 100.0 - progress;
    var bottom := progress;
    Hourglass(
      top, bottom,
      Rect(30.0 + (100.0 - top), top),
      Rect(270.0 - bottom, bottom),
      progress > 0.0 && progress < 100.0,
      top > 0.0,
      bottom > 0.0,
      progress.Floor)
  }

  /** As progress grows, sand leaves the top bulb and fills the bottom one. */
  lemma SandFlowsDown(p: real, q: real)
    requires p <= q
    ensures Render(q).topLevel <= Render(p).topLevel
    ensures Render(p).bottomLevel <= Render(q).bottomLevel
    ensures Render(p).topSand.y <= Render(q).topSand.y
    ensures Render(q).bottomSand.y <= Render(p).bottomSand.y
  {
  }
}

=== FILE: sand_timer.dfy ===
/** The sand-clock countdown (`AnimatedSandTimer.tsx`): minutes and seconds
    are configured with inputs or ±1 buttons, Start loads `totalTime` and
    `timeLeft` from them (or resumes), a once-a-second tick counts `timeLeft`
    down, and the elapsed share of `totalTime` drives the hourglass.

    As for the countdown timer, the `useState` fields are one record and the
    handlers pure transitions; the interval is `Tick`, enabled only while
    `isRunning && timeLeft > 0`; the completion sound and the toasts are a
    `Notice`. Theme and flip animation are not modelled. */
module SandTimer {
  import opened Inputs
  import Digits

  const MaxMinutes: nat := 59
  const MaxSeconds: nat := 59

  datatype SandState = SandState(
    minutes: nat,
    seconds: nat,
    isRunning: bool,
    timeLeft: nat,
    totalTime: nat)

  /** `Complete` is the chime with "Time's up!", `InvalidTime` is "Please set a valid time". */
  datatype Notice = Quiet | Complete | InvalidTime

  datatype Step = Step(state: SandState, notice: Notice)

  /** The state the component mounts with: one minute configured, nothing loaded. */
  const Initial := SandState(1, 0, false, 0, 0)

  /** The states the component can reach: configuration within its inputs'
      ranges, the time left never above the loaded total, and the timer only
      running while time is left. */
  ghost predicate Valid(s: SandState) {
    && s.minutes <= MaxMinutes && s.seconds <= MaxSeconds
    && s.timeLeft <= s.totalTime
    && (s.isRunning ==> s.timeLeft > 0)
  }

  lemma InitialValid()
    ensures Valid(Initial)
  {
  }

  /** `progressPercentage`: the elapsed share of the loaded total, in percent;
      0 while nothing is loaded. */
  function Progress(s: SandState): (p: real)
    ensures s.totalTime == 0 ==> p == 0.0
    ensures s.timeLeft <= s.totalTime ==> 0.0 <= p <= 100.0
    ensures s.timeLeft <= s.totalTime && s.totalTime > 0 ==> (p == 100.0 <==> s.timeLeft == 0)
    ensures s.timeLeft <= s.totalTime && s.totalTime > 0 ==> (p == 0.0 <==> s.timeLeft == s.totalTime)
  {
    if s.totalTime > 0 then
      ((s.totalTime - s.timeLeft) as real / s.totalTime as real) * 100.0
    else
      0.0
  }

  /** Dividing by a positive total keeps the order of what is divided. */
  lemma DivideKeepsOrder(a: real, b: real, total: real)
    requires a < b && total > 0.0
    ensures a / total < b / total
  {
    var x := a / total;
    var y := b / total;
    assert x * total == a && y * total == b;
    assert (y - x) * total == b - a;
  }

  /** With the same total loaded, less time left means more progress. */
  lemma ProgressMonotone(s: SandState, t: SandState)
    requires s.totalTime == t.totalTime > 0
    requires t.timeLeft < s.timeLeft <= s.totalTime
    ensures Progress(s) < Progress(t)
  {
    DivideKeepsOrder((s.totalTime - s.timeLeft) as real, (t.totalTime - t.timeLeft) as real, s.totalTime as real);
  }

  /** `handleStart`. With nothing left to run it loads minutes and seconds
      into both `totalTime` and `timeLeft`, refusing a zero configuration with
      a toast and no change; with time left it only resumes. */
  function Start(s: SandState): (r: Step)
    ensures s.timeLeft == 0 && s.minutes * 60 + s.seconds == 0 ==> r == Step(s, InvalidTime)
    ensures s.timeLeft == 0 && s.minutes * 60 + s.seconds > 0 ==>
      && r.notice == Quiet
      && r.state.totalTime == r.state.timeLeft == s.minutes * 60 + s.seconds
      && r.state == s.(totalTime := r.state.totalTime, timeLeft := r.state.timeLeft, isRunning := true)
    ensures s.timeLeft > 0 ==> r == Step(s.(isRunning := true), Quiet)
    ensures Valid(s) ==> Valid(r.state)
  {
    if s.timeLeft == 0 then
      var total := s.minutes * 60 + s.seconds;
      if total <= 0 then
        Step(s, InvalidTime)
      else
        Step(s.(totalTime := total, timeLeft := total, isRunning := true), Quiet)
    else
      Step(s.(isRunning := true), Quiet)
  }

  /** `handlePause`: stops the countdown and nothing else. */
  function Pause(s: SandState): (r: SandState)
    ensures !r.isRunning
    ensures r == s.(isRunning := false)
    ensures Progress(r) == Progress(s)
    ensures Valid(s) ==> Valid(r)
  {
    s.(isRunning := false)
  }

  /** `handleReset`: stops and unloads the countdown but keeps the configured
      minutes and seconds. */
  function Reset(s: SandState): (r: SandState)
    ensures !r.isRunning && r.timeLeft == 0 && r.totalTime == 0
    ensures r.minutes == s.minutes && r.seconds == s.seconds
    ensures Progress(r) == 0.0
    ensures Valid(s) ==> Valid(r)
  {
    s.(isRunning := false, timeLeft := 0, totalTime := 0)
  }

  /** The guard of the interval effect. */
  predicate TickEnabled(s: SandState) {
    s.isRunning && s.timeLeft > 0
  }

  /** One delivery of the 1-second interval: the `setTimeLeft` updater with the
      `setIsRunning(false)`, chime and toast it nests, as one step. */
  function Tick(s: SandState): (r: Step)
    requires TickEnabled(s)
    ensures r.state.timeLeft == s.timeLeft - 1
    ensures r.state == s.(timeLeft := r.state.timeLeft, isRunning := r.state.isRunning)
    ensures r.notice != InvalidTime
    ensures r.notice == Complete <==> s.timeLeft == 1
    ensures r.notice == Complete <==> !TickEnabled(r.state)
    ensures r.notice == Complete <==> !r.state.isRunning
    ensures Valid(s) ==> Valid(r.state)
    ensures Valid(s) ==> Progress(s) < Progress(r.state)
    ensures Valid(s) ==> (Progress(r.state) == 100.0 <==> r.notice == Complete)
  {
    var r := if s.timeLeft <= 1 then
      Step(s.(isRunning := false, timeLeft := 0), Complete)
    else
      Step(s.(timeLeft := s.timeLeft - 1), Quiet);
    assert s.timeLeft <= s.totalTime ==> Progress(s) < Progress(r.state) by {
      if s.timeLeft <= s.totalTime { ProgressMonotone(s, r.state); }
    }
    r
  }

  datatype Unit = Minutes | Seconds

  /** `Math.max(0, Math.min(59, v ± 1))`. */
  function Nudge(v: nat, increment: bool): (r: nat)
    ensures r <= 59
    ensures v < 59 && increment ==> r == v + 1
    ensures 0 < v <= 59 && !increment ==> r == v - 1
    ensures v == 0 && !increment ==> r == 0
    ensures v >= 59 && increment ==> r == 59
    ensures v > 59 ==> r == 59
  {
    Clamp(v + (if increment then 1 else -1), 0, 59)
  }

  /** `adjustTime`: ignored while running; otherwise moves the chosen field by
      one, kept within [0, 59], and leaves everything else alone. */
  function AdjustTime(s: SandState, unit: Unit, increment: bool): (r: SandState)
    ensures s.isRunning ==> r == s
    ensures !s.isRunning && unit == Minutes ==> r == s.(minutes := Nudge(s.minutes, increment))
    ensures !s.isRunning && unit == Seconds ==> r == s.(seconds := Nudge(s.seconds, increment))
    ensures Valid(s) ==> Valid(r)
  {
    if s.isRunning then s
    else match unit
      case Minutes => s.(minutes := Nudge(s.minutes, increment))
      case Seconds => s.(seconds := Nudge(s.seconds, increment))
  }

  /** The minutes input's `onChange`: only `minutes` changes, clamped into [0, 59]. */
  function SetMinutes(s: SandState, parsed: Option<int>): (r: SandState)
    ensures r == s.(minutes := r.minutes)
    ensures StoredAs(parsed, MaxMinutes, r.minutes)
    ensures Valid(s) ==> Valid(r)
  {
    s.(minutes := FieldValue(parsed, MaxMinutes))
  }

  /** The seconds input's `onChange`: only `seconds` changes, clamped into [0, 59]. */
  function SetSeconds(s: SandState, parsed: Option<int>): (r: SandState)
    ensures r == s.(seconds := r.seconds)
    ensures StoredAs(parsed, MaxSeconds, r.seconds)
    ensures Valid(s) ==> Valid(r)
  {
    s.(seconds := FieldValue(parsed, MaxSeconds))
  }

  /** Top and bottom sand levels, in percent of a bulb. */
  datatype Levels = Levels(top: real, bottom: real)

  /** `topSandLevel` and `bottomSandLevel`: while time is left the sand is
      split by the progress; otherwise the top bulb shows full. */
  function SandLevels(s: SandState): (l: Levels)
    ensures s.timeLeft > 0 ==> l.top + l.bottom == 100.0 && l.bottom == Progress(s)
    ensures s.timeLeft == 0 ==> l == Levels(100.0, 0.0)
    ensures Valid(s) ==> 0.0 <= l.top <= 100.0 && 0.0 <= l.bottom <= 100.0
  {
    var active := s.timeLeft > 0;
    Levels(if active then 100.0 - Progress(s) else 100.0,
           if active then Progress(s) else 0.0)
  }

  /** `formatTime` as "MM:SS": the minutes padded to two digits, a colon, the
      seconds padded to two digits. Whatever `t`, the part before the colon
      reads as the whole minutes and the two digits after it as the seconds
      below 60; below 100 minutes, which every configuration is, the result
      is exactly five characters, and from 100 minutes on the minutes are the
      plain numeral `String(t / 60)`. */
  function FormatTime(t: nat): (r: string)
    ensures |r| >= 5 && r[|r| - 3] == ':'
    ensures Digits.AllDigits(r[..|r| - 3]) && Digits.AllDigits(r[|r| - 2..])
    ensures Digits.Value(r[..|r| - 3]) == t / 60
    ensures Digits.Value(r[|r| - 2..]) == t % 60 < 60
    ensures Digits.Value(r[..|r| - 3]) * 60 + Digits.Value(r[|r| - 2..]) == t
    ensures t < 6000 <==> |r| == 5
    ensures t / 60 >= 100 ==> r[..|r| - 3] == Digits.ToDecimal(t / 60)
    ensures t <= MaxMinutes * 60 + MaxSeconds ==> Digits.Value(r[..|r| - 3]) <= 59
  {
    var mins := Digits.Pad2(t / 60);
    var secs := Digits.Pad2(t % 60);
    var r := mins + ":" + secs;
    assert r[..|r| - 3] == mins && r[|r| - 2..] == secs;
    r
  }

  /** What the user can do to the component, plus the interval's delivery. */
  datatype Action =
    | EditMinutes(minutes: Option<int>)
    | EditSeconds(seconds: Option<int>)
    | Adjust(unit: Unit, increment: bool)
    | PressStart
    | PressPause
    | PressReset
    | Interval

  /** One action; a `Interval` while the guard is false changes nothing. */
  function Apply(s: SandState, a: Action): (r: Step)
    ensures Valid(s) ==> Valid(r.state)
  {
    match a
    case EditMinutes(v) => Step(SetMinutes(s, v), Quiet)
    case EditSeconds(v) => Step(SetSeconds(s, v), Quiet)
    case Adjust(u, inc) => Step(AdjustTime(s, u, inc), Quiet)
    case PressStart => Start(s)
    case PressPause => Step(Pause(s), Quiet)
    case PressReset => Step(Reset(s), Quiet)
    case Interval => if TickEnabled(s) then Tick(s) else Step(s, Quiet)
  }

  /** The state after a sequence of actions. */
  function Final(s: SandState, acts: seq<Action>): SandState
    decreases |acts|
  {
    if |acts| == 0 then s else Final(Apply(s, acts[0]).state, acts[1..])
  }

  /** Whatever the user does, from mounting on the progress bar and both sand
      levels stay within [0, 100]. */
  lemma {:induction false} ProgressStaysInRange(s: SandState, acts: seq<Action>)
    requires Valid(s)
    ensures Valid(Final(s, acts))
    ensures 0.0 <= Progress(Final(s, acts)) <= 100.0
    decreases |acts|
  {
    if |acts| > 0 {
      ProgressStaysInRange(Apply(s, acts[0]).state, acts[1..]);
    }
  }

  /** How many completion chimes a sequence of actions plays. */
  function Completions(s: SandState, acts: seq<Action>): nat
    decreases |acts|
  {
    if |acts| == 0 then 0
    else
      var st := Apply(s, acts[0]);
      (if st.notice == Complete then 1 else 0) + Completions(st.state, acts[1..])
  }

  function Ticks(n: nat): (acts: seq<Action>)
    ensures |acts| == n
    ensures forall i :: 0 <= i < n ==> acts[i] == Interval
  {
    seq(n, _ => Interval)
  }

  /** A running countdown with `n` seconds left reaches 100% after exactly
      `n` ticks, chimes once, and stray ticks after that change nothing. */
  lemma {:induction false} RunsToCompletion(s: SandState, extra: nat)
    requires Valid(s) && s.isRunning
    ensures Completions(s, Ticks(s.timeLeft + extra)) == 1
    ensures Final(s, Ticks(s.timeLeft + extra)).timeLeft == 0
    ensures !Final(s, Ticks(s.timeLeft + extra)).isRunning
    ensures Progress(Final(s, Ticks(s.timeLeft + extra))) == 100.0
    decreases s.timeLeft
  {
    var acts := Ticks(s.timeLeft + extra);
    var st := Tick(s);
    assert Apply(s, acts[0]) == st;
    assert acts[1..] == Ticks(st.state.timeLeft + extra);
    if s.timeLeft == 1 {
      StrayTicks(st.state, extra);
    } else {
      RunsToCompletion(st.state, extra);
    }
  }

  /** Ticks delivered with no time left change nothing and chime nothing. */
  lemma {:induction false} StrayTicks(s: SandState, n: nat)
    requires s.timeLeft == 0
    ensures Completions(s, Ticks(n)) == 0
    ensures Final(s, Ticks(n)) == s
    decreases n
  {
    if n > 0 {
      assert Apply(s, Ticks(n)[0]) == Step(s, Quiet);
      assert Ticks(n)[1..] == Ticks(n - 1);
      StrayTicks(s, n - 1);
    }
  }

  /** No chime comes early: fewer than `n` ticks of a running countdown with
      `n` seconds left only lower `timeLeft`, one second each, chime nothing,
      and leave the progress below 100%. */
  lemma {:induction false} CountsDown(s: SandState, k: nat)
    requires Valid(s) && s.isRunning && k < s.timeLeft
    ensures Final(s, Ticks(k)) == s.(timeLeft := s.timeLeft - k)
    ensures Completions(s, Ticks(k)) == 0
    ensures Progress(Final(s, Ticks(k))) < 100.0
    decreases k
  {
    if k > 0 {
      var st := Tick(s);
      assert Apply(s, Ticks(k)[0]) == st;
      assert Ticks(k)[1..] == Ticks(k - 1);
      CountsDown(st.state, k - 1);
    }
  }
}

=== FILE: stopwatch.dfy ===
/** The stopwatch (`Stopwatch.tsx`): one button toggles running, a 10 ms
    interval adds 10 to the elapsed milliseconds while running, Lap records
    the current time at the end of the lap list, and Reset clears everything.

    The `useState` fields are one record and every handler a pure transition;
    the interval the effect registers while `isRunning` is `Tick`, enabled
    only under that guard. */
module Stopwatch {
  import TimeFields
  import Digits

  /** The interval's period, which is also what each delivery adds. */
  const TickMs: nat := 10

  datatype WatchState = WatchState(isRunning: bool, time: nat, laps: seq<nat>)

  /** The state the component mounts with. */
  const Initial := WatchState(false, 0, [])

  /** Oldest lap first: the list never goes down. */
  ghost predicate NonDecreasing(xs: seq<nat>) {
    forall i, j :: 0 <= i < j < |xs| ==> xs[i] <= xs[j]
  }

  /** The states the stopwatch can reach: whole ticks elapsed, laps in
      capture order, none later than the current time. */
  ghost predicate Valid(w: WatchState) {
    && w.time % TickMs == 0
    && NonDecreasing(w.laps)
    && (forall i :: 0 <= i < |w.laps| ==> w.laps[i] <= w.time && w.laps[i] % TickMs == 0)
  }

  lemma InitialValid()
    ensures Valid(Initial)
  {
  }

  /** The guard of the interval effect. */
  predicate TickEnabled(w: WatchState) {
    w.isRunning
  }

  /** One delivery of the 10 ms interval: `setTime(prev => prev + 10)`. */
  function Tick(w: WatchState): (r: WatchState)
    requires TickEnabled(w)
    ensures r.time == w.time + TickMs
    ensures r.isRunning && r.laps == w.laps
    ensures Valid(w) ==> Valid(r)
  {
    w.(time := w.time + 10)
  }

  /** `handleStartPause`: a pure toggle of `isRunning`. */
  function StartPause(w: WatchState): (r: WatchState)
    ensures r.isRunning != w.isRunning
    ensures r.time == w.time && r.laps == w.laps
    ensures Valid(w) ==> Valid(r)
  {
    w.(isRunning := !w.isRunning)
  }

  /** `handleLap`: ignored unless running; while running the current time is
      appended after every earlier lap, which stay as they were. */
  function Lap(w: WatchState): (r: WatchState)
    ensures !w.isRunning ==> r == w
    ensures w.isRunning ==>
      && |r.laps| == |w.laps| + 1
      && r.laps[..|w.laps|] == w.laps
      && r.laps[|w.laps|] == w.time
    ensures r.isRunning == w.isRunning && r.time == w.time
    ensures Valid(w) ==> Valid(r)
  {
    if w.isRunning then w.(laps := w.laps + [w.time]) else w
  }

  /** `handleReset`: stopped, zero and no laps, from any state. */
  function Reset(w: WatchState): (r: WatchState)
    ensures !r.isRunning && r.time == 0 && r.laps == []
    ensures Valid(r)
  {
    WatchState(false, 0, [])
  }

  /** The four numeric fields of `formatTime`: `milliseconds` holds hundredths. */
  datatype Parts = Parts(hours: nat, minutes: nat, seconds: nat, centis: nat)

  /** The milliseconds the fields stand for. */
  function PartsMs(p: Parts): nat {
    p.hours * 3600000 + p.minutes * 60000 + p.seconds * 1000 + p.centis * 10
  }

  /** The last digit of the milliseconds survives taking them modulo 1000. */
  lemma CentisOfMs(ms: nat)
    ensures (ms % 1000) % 10 == ms % 10
  {
    var q := ms / 1000;
    assert ms == 10 * (100 * q) + ms % 1000;
  }

  /** `formatTime`'s arithmetic: whole seconds split as the countdown timer
      does, and hundredths from `floor((ms % 1000) / 10)`. The fields give
      `ms` back to within one hundredth, exactly when `ms` is a multiple of 10. */
  function Split(ms: nat): (p: Parts)
    ensures p.minutes < 60 && p.seconds < 60 && p.centis < 100
    ensures PartsMs(p) <= ms < PartsMs(p) + 10
    ensures PartsMs(p) == ms <==> ms % 10 == 0
  {
    var f := TimeFields.Split(ms / 1000);
    var p := Parts(f.hours, f.minutes, f.seconds, (ms % 1000) / 10);
    CentisOfMs(ms);
    assert PartsMs(p) == 1000 * TimeFields.Join(f) + 10 * ((ms % 1000) / 10);
    p
  }

  /** The four display strings of `formatTime`. */
  datatype Display = Display(hours: string, minutes: string, seconds: string, centis: string)

  /** `formatTime`: each field padded to two digits. Each string reads back as
      its field; all four are two characters long below 100 hours, and from
      100 hours on the hours are the plain numeral `String(hours)`. */
  function FormatTime(ms: nat): (d: Display)
    ensures Digits.AllDigits(d.hours) && Digits.AllDigits(d.minutes)
    ensures Digits.AllDigits(d.seconds) && Digits.AllDigits(d.centis)
    ensures Split(ms) == Parts(Digits.Value(d.hours), Digits.Value(d.minutes),
                               Digits.Value(d.seconds), Digits.Value(d.centis))
    ensures |d.minutes| == 2 && |d.seconds| == 2 && |d.centis| == 2
    ensures ms < 360000000 <==> |d.hours| == 2
    ensures Split(ms).hours >= 100 ==> d.hours == Digits.ToDecimal(Split(ms).hours)
  {
    var p := Split(ms);
    Display(Digits.Pad2(p.hours), Digits.Pad2(p.minutes), Digits.Pad2(p.seconds), Digits.Pad2(p.centis))
  }

  /** What the user can do to the stopwatch, plus the interval's delivery. */
  datatype Action = PressStartPause | PressLap | PressReset | Interval

  /** One action; an `Interval` while stopped finds no interval registered. */
  function Apply(w: WatchState, a: Action): (r: WatchState)
    ensures Valid(w) ==> Valid(r)
  {
    match a
    case PressStartPause => StartPause(w)
    case PressLap => Lap(w)
    case PressReset => Reset(w)
    case Interval => if TickEnabled(w) then Tick(w) else w
  }

  /** The state after a sequence of actions. */
  function Final(w: WatchState, acts: seq<Action>): WatchState
    decreases |acts|
  {
    if |acts| == 0 then w else Final(Apply(w, acts[0]), acts[1..])
  }

  /** Whatever the user does, from mounting on the elapsed time is a whole
      number of ticks and the laps are in order, none after the current time. */
  lemma {:induction false} LapsStayOrdered(w: WatchState, acts: seq<Action>)
    requires Valid(w)
    ensures Valid(Final(w, acts))
    decreases |acts|
  {
    if |acts| > 0 {
      LapsStayOrdered(Apply(w, acts[0]), acts[1..]);
    }
  }

  function Intervals(n: nat): (acts: seq<Action>)
    ensures |acts| == n
    ensures forall i :: 0 <= i < n ==> acts[i] == Interval
  {
    seq(n, _ => Interval)
  }

  /** `n` ticks while running add exactly `10 * n` milliseconds and touch
      nothing else. */
  lemma {:induction false} TicksAccumulate(w: WatchState, n: nat)
    requires w.isRunning
    ensures Final(w, Intervals(n)) == w.(time := w.time + TickMs * n)
    decreases n
  {
    if n > 0 {
      assert Apply(w, Intervals(n)[0]) == w.(time := w.time + TickMs);
      assert Intervals(n)[1..] == Intervals(n - 1);
      TicksAccumulate(w.(time := w.time + TickMs), n - 1);
    }
  }

  /** Pausing and resuming loses and adds nothing: with `n` ticks, a pause,
      any number of stray deliveries, a resume and `m` more ticks, the time
      has grown by exactly `10 * (n + m)`. */
  lemma PauseResume(w: WatchState, n: nat, stray: nat, m: nat)
    requires w.isRunning
    ensures Final(w, Intervals(n) + [PressStartPause] + Intervals(stray) + [PressStartPause] + Intervals(m))
         == w.(time := w.time + TickMs * (n + m))
  {
    var a := Intervals(n);
    var b := [PressStartPause] + Intervals(stray) + [PressStartPause] + Intervals(m);
    assert a + [PressStartPause] + Intervals(stray) + [PressStartPause] + Intervals(m) == a + b;
    FinalAppend(w, a, b);
    TicksAccumulate(w, n);
    var w1 := w.(time := w.time + TickMs * n);
    var c := Intervals(stray) + [PressStartPause] + Intervals(m);
    assert b == [PressStartPause] + c;
    assert Final(w1, b) == Final(StartPause(w1), c);
    var w2 := StartPause(w1);
    FinalAppend(w2, Intervals(stray), [PressStartPause] + Intervals(m));
    assert Intervals(stray) + ([PressStartPause] + Intervals(m)) == c;
    IgnoredWhileStopped(w2, stray);
    assert Final(w2, c) == Final(StartPause(w2), Intervals(m));
    TicksAccumulate(StartPause(w2), m);
  }

  /** Deliveries while stopped change nothing. */
  lemma {:induction false} IgnoredWhileStopped(w: WatchState, n: nat)
    requires !w.isRunning
    ensures Final(w, Intervals(n)) == w
    decreases n
  {
    if n > 0 {
      assert Intervals(n)[1..] == Intervals(n - 1);
      IgnoredWhileStopped(w, n - 1);
    }
  }

  /** Running two sequences one after the other. */
  lemma {:induction false} FinalAppend(w: WatchState, a: seq<Action>, b: seq<Action>)
    ensures Final(w, a + b) == Final(Final(w, a), b)
    decreases |a|
  {
    if |a| > 0 {
      assert (a + b)[0] == a[0];
      assert (a + b)[1..] == a[1..] + b;
      FinalAppend(Apply(w, a[0]), a[1..], b);
    } else {
      assert a + b == b;
    }
  }
}

=== FILE: time_fields.dfy ===
/** Hours, minutes and seconds of a whole number of seconds, the split that the
    countdown timer's and the stopwatch's `formatTime` both perform. */
module TimeFields {
  import opened Digits

  datatype Fields = Fields(hours: nat, minutes: nat, seconds: nat)

  /** The number of seconds the fields stand for. */
  function Join(f: Fields): nat {
    f.hours * 3600 + f.minutes * 60 + f.seconds
  }

  /** Minutes and seconds within a clock face's range. */
  predicate Normal(f: Fields) {
    f.minutes < 60 && f.seconds < 60
  }

  lemma ModOfMod(t: nat)
    ensures (t % 3600) % 60 == t % 60
  {
    var q := t / 3600;
    var r := t % 3600;
    assert t == 60 * (60 * q) + r;
  }

  /** `floor(t / 3600)`, `floor((t % 3600) / 60)` and `t % 60`. */
  function Split(t: nat): (f: Fields)
    ensures Normal(f)
    ensures Join(f) == t
  {
    ModOfMod(t);
    Fields(t / 3600, (t % 3600) / 60, t % 60)
  }

  /** The split is the only normal reading of a count: splitting what normal
      fields stand for gives those fields back. */
  lemma SplitJoin(f: Fields)
    requires Normal(f)
    ensures Split(Join(f)) == f
  {
    var t := Join(f);
    var r := f.minutes * 60 + f.seconds;
    assert r < 3600;
    assert t == f.hours * 3600 + r;
    assert t / 3600 == f.hours && t % 3600 == r;
    assert r / 60 == f.minutes && r % 60 == f.seconds;
  }

  /** The three display strings of a `formatTime` result. */
  datatype Display = Display(hours: string, minutes: string, seconds: string)

  /** Whether every field of a display is a decimal numeral. */
  predicate Numeric(d: Display) {
    AllDigits(d.hours) && AllDigits(d.minutes) && AllDigits(d.seconds)
  }

  /** The fields a numeric display reads as. */
  function Decode(d: Display): Fields
    requires Numeric(d)
  {
    Fields(Value(d.hours), Value(d.minutes), Value(d.seconds))
  }

  /** The number of seconds a numeric display reads as. */
  function Reading(d: Display): nat
    requires Numeric(d)
  {
    Join(Decode(d))
  }

  /** `formatTime(t)` of the countdown timer: each field padded to two digits.
      The display reads back field by field as the split of `t`, so the shown
      minutes and seconds are below 60 and the whole reads back as `t`;
      minutes and seconds are always two characters and so are the hours
      below 100; from 100 hours on the hours are the plain numeral. */
  function FormatTime(t: nat): (d: Display)
    ensures Numeric(d) && Decode(d) == Split(t)
    ensures Normal(Decode(d)) && Reading(d) == t
    ensures |d.minutes| == 2 && |d.seconds| == 2
    ensures t < 360000 <==> |d.hours| == 2
    ensures Split(t).hours >= 100 ==> d.hours == ToDecimal(Split(t).hours)
  {
    var f := Split(t);
    Display(Pad2(f.hours), Pad2(f.minutes), Pad2(f.seconds))
  }
}
